=== FILE: README.md ===
# Lootcase spinner — a Dafny model

This project models the spinner controller of a game lootcase overlay
(`LootcaseSpinner` in `web/script.js`). When the host opens the lootcase it
gets a list of items and draws one slot per item, evenly spaced around a
wheel. A click on the spin button starts a spin unless one is running; the
spin disables the button. An accepted spin draws a winning index and three
to five extra turns, then animates the wheel over 3000 ms with a cubic
ease-out curve to an absolute target rotation. At the last frame the spin
completes: the winning item is selected, its slot highlighted and its result
panel shown, a `spinResult` message with the index and the item goes to the
host, and a timer enables the button again 1500 ms later.

The model is functional. The spinner state is an immutable datatype and every
transition is a pure function:

- `Open`: the host's open command, including the reset.
- `Spin`: the guarded start of a spin.
- `AnimateFrame`: one animation frame.
- `Complete`: completion of a spin.
- `Rearm`: the timer that enables the spin button again.
- `Close`: the close command.

The DOM is reduced to the data it shows: the slots (angle, label, rarity,
selected flag), the result panel, the visibility of the overlay and whether
the spin button is enabled. Messages
to the host are returned as a list. The two `Math.random()` draws of a spin
are parameters in `[0, 1)`, and the winning index and turn count are computed
from them exactly as the source does (`floor(r * N)`, `floor(r * 3) + 3`).
A frame is given by the milliseconds elapsed since its spin started. Angles
and times are exact reals.

`Session` puts the spinner state together with the animation loops and the
button timers that are still scheduled. Its events are the host's open and
close commands, clicks of the spin button, animation frames and the firing of
a button timer. A loop keeps the winning index it drew but reads the item
list only when it completes. An open command with items resets `isSpinning`
without stopping the loop, and the loop later reads a list it did not draw
from. The open command does not touch the button, which stays disabled.

`Session.Coherent` is the invariant under which a reported result is the item
the wheel stopped on. It is preserved by every event except an open command
with items during a spin. Two concrete traces show what happens after such
an open command:

- `ReopenMidSpinLocksButton`: with a shorter new list, the old loop's index is
  past its end. Completion clears the selection and then fails in
  `showResult` before it sends a result or sets the button's timer. The button
  stays disabled for good (`LockedForever`).
- `ReopenMidSpinReportsWrongItem`: with a longer new list, the spin reports an
  item of the new list that it never drew for, whose slot is not where the
  wheel stopped.

Files, one module each: `items.dfy` (`Option`, items, `||` defaults, decimal
slot numbers, upper-casing, result panel), `geometry.dfy`
(angles, draws, target, progress, easing, interpolation), `slots.dfy` (slot
layout and highlighting), `spinner.dfy` (state and transitions),
`session.dfy` (page, events, invariant, traces).

Three behaviours of the code matter for the model:

- Progress is `Math.min(elapsed / duration, 1)`, so it is clamped only from
  above, not to `[0, 1]`. A frame stamped before its spin's start has
  negative progress. The bounds lemmas that need progress in `[0, 1]`
  require `elapsed >= 0`; the monotonicity lemmas do not.
- An open command whose `items` is an empty array is accepted, because an
  empty array is truthy. It leaves an empty wheel. Only an accepted spin
  needs a non-empty list.
- `isSpinning` is not confined to the time between the start and the
  completion of one spin. A reopen clears it while the loop still runs, and
  the loop's completion clears it. Only the disabled button keeps a second
  spin from starting after a reopen.

## Model

| member | source | states |
|---|---|---|
| Items.OrElseNonEmpty | web/script.js:78-81 | a defaulted field shows the field when it is truthy (present and non-empty), otherwise the fallback; with a non-empty fallback the text is never empty |
| Items.Decimal | web/script.js:78 | the rendering of a slot number is a non-empty digit string without a leading zero for positive numbers |
| Items.DecimalRoundTrip | web/script.js:78 | parsing the rendered slot number gives the number back |
| Items.DecimalInjective | web/script.js:78 | different slot numbers render differently, so default labels of different slots differ |
| Items.SlotLabelSpec | web/script.js:78 | a slot shows its item's label, or else "Item " followed by its one-based position; never an empty label |
| Items.UpperAscii | web/script.js:245 | the rarity badge is the rarity upper-cased: same length, no lower-case letter left, other characters kept |
| Items.UpperAsciiIdempotent | web/script.js:245 | upper-casing an already upper-cased badge changes nothing |
| Items.ShowResult | web/script.js:239-248 | the result panel shows the item's truthy label, else "Unknown Item"; its truthy rarity, else "common", with the upper-cased badge; and its description exactly when the item has a truthy one |
| Items.ShowResultDistinguishes | web/script.js:239-248 | for items whose label, rarity and description are all truthy, two panels are equal exactly when the items are equal: the panel loses nothing of such an item |
| Geometry.SlotAngleSpec | web/script.js:70-79 | slot i of N sits at i·(360/N): the first at 0, all within one turn, neighbours 360/N apart |
| Geometry.SlotAngleInjective | web/script.js:71-79 | no two slots share an angle |
| Geometry.Draw | web/script.js:154 | `floor(r * N)` for a draw r in [0, 1) is an index in [0, N) |
| Geometry.DrawInterval | web/script.js:154 | index k is drawn exactly for r in [k/N, (k+1)/N), an interval of width 1/N for every k (the pick is uniform) |
| Geometry.DrawReaches | web/script.js:154 | every index of [0, N) can be drawn |
| Geometry.ExtraTurns | web/script.js:152 | the extra-turn count is 3, 4 or 5 |
| Geometry.ExtraTurnsInterval | web/script.js:152 | t extra turns are drawn exactly for r in [(t-3)/3, (t-2)/3): each of 3, 4 and 5 takes a third of the draws |
| Geometry.TargetSpec | web/script.js:155-157 | the target is the winning slot's angle modulo 360, and lies in [1080, 2160) |
| Geometry.Progress | web/script.js:175-176 | progress never exceeds 1, equals 1 exactly once the 3000 ms have elapsed, is elapsed/3000 before that, and is negative for a negative elapsed time |
| Geometry.ProgressMonotone | web/script.js:175-176 | later frames have at least as much progress |
| Geometry.PowStrictlyMonotone | web/script.js:179 | a positive power preserves the strict order of non-negative numbers |
| Geometry.PowUnit | web/script.js:179 | powers of a number in [0, 1] stay in [0, 1] |
| Geometry.EaseEndpoints | web/script.js:179 | the ease-out curve maps 0 to 0 and 1 to 1 |
| Geometry.EaseAtEnd | web/script.js:176-179 | once the duration has elapsed the eased progress is exactly 1 |
| Geometry.EaseMonotone | web/script.js:179 | the ease-out curve is strictly increasing for all progress up to 1, negative progress included |
| Geometry.EaseBounds | web/script.js:179 | the ease-out curve maps [0, 1] into [0, 1] |
| Geometry.LerpBetween | web/script.js:182 | an interpolation weight in [0, 1] gives a rotation between start and target, whichever is larger; weight 0 gives the start and weight 1 the target |
| Geometry.LerpFull | web/script.js:182 | weight 1 lands exactly on the target |
| Geometry.LerpMonotone | web/script.js:182 | a larger weight moves the rotation further towards the target, in either direction |
| Slots.Layout | web/script.js:63-84 | one slot per item, in order: slot i at angle i·(360/N), labelled with the item's label or "Item i+1", with the item's truthy rarity or "common", not selected |
| Slots.LayoutSpec | web/script.js:70-83 | one slot per item in input order, the first at 0, all within one turn, evenly spaced by 360/N, at distinct angles, each with a non-empty label and rarity, none selected |
| Slots.Highlight | web/script.js:210-215 | after highlighting, exactly the slot at the winning index is selected (none if the index is past the end); angles, labels and rarities are unchanged |
| Slots.HighlightIdempotent | web/script.js:210-215 | highlighting the same index again changes nothing |
| Slots.ShowsItemsKept | web/script.js:63-84 | a freshly drawn wheel shows its items, highlighting keeps it showing them, and a wheel showing its items has slot i at angle i·(360/N) |
| LootcaseSpinner.Reset | web/script.js:126-134 | a reset clears the wheel, sets the rotation to 0 and clears spinning and selection; the items, the visibility and the spin button are left as they are |
| LootcaseSpinner.Open | web/script.js:110-134 | the overlay is shown; with items, the items are replaced, rotation reset to 0, spinning and selection cleared, and the wheel redrawn from the new items; without items nothing else changes; the spin button is never touched |
| LootcaseSpinner.OpenIdempotent | web/script.js:110-134 | opening twice with the same command is opening once |
| LootcaseSpinner.OpenReleasesGuard | web/script.js:116-119 | an open command with items clears the spinning flag even while a spin runs |
| LootcaseSpinner.Spin | web/script.js:139-161 | while spinning, a call leaves the whole state unchanged and starts nothing; otherwise only the spinning flag is set and the button disabled, and an animation starts from the current rotation towards 3 to 5 turns plus the angle of a drawn index in [0, N) |
| LootcaseSpinner.SpinTarget | web/script.js:152-157 | an accepted spin draws its slot from the second draw and its extra turns from the first; its target is that many whole turns plus the slot's angle in the layout, so it is congruent modulo 360 to that angle and lies in [1080, 2160) |
| LootcaseSpinner.AnimateFrame | web/script.js:174-195 | a frame completes the spin exactly when 3000 ms have elapsed, and then does so with the wheel exactly on the target; any earlier frame changes only the rotation and sends nothing |
| LootcaseSpinner.FrameBetween | web/script.js:172-183 | from the start of a spin on, every frame's rotation lies between the start and the absolute target inclusive, also when the target is below the start |
| LootcaseSpinner.FramesApproachTarget | web/script.js:174-183 | later frames of one spin are never further from the target than earlier ones, including frames stamped before the spin's start |
| LootcaseSpinner.EarlyFrameKeepsSpinning | web/script.js:190-191 | a frame before the end keeps the spinning flag and the selection, sends nothing and sets no timer |
| LootcaseSpinner.Complete | web/script.js:205-224 | completion clears the spinning flag, highlights only the winning slot and keeps every slot's angle, label and rarity, and, when the index is within the current items, selects that item, shows its panel, sends `spinResult` with the index and the item and sets the button's timer; past the end it selects nothing, sends nothing and sets no timer; the button itself is not touched |
| LootcaseSpinner.Rearm | web/script.js:227-232 | the timer enables the spin button and changes nothing else |
| LootcaseSpinner.Close | web/script.js:261-272 | closing hides the overlay, sends `closeLootcase` once and changes nothing else, so a running spin goes on |
| Session.Apply | web/script.js:89-103 | the dispatch of open and close commands, button clicks, frames and timers: only an open command replaces the items; exactly a close command sends `closeLootcase`; at most one message per event; only a click starts a loop; only a timer enables the button; a `spinResult` comes only from a loop's last frame and carries that loop's index and the item now at it; a timer is set only together with a `spinResult` |
| Session.StartCoherent | web/script.js:42-48 | the page starts idle with no loop running and the button enabled, which satisfies the invariant |
| Session.CoherentPreserved | web/script.js:110-232 | every event except an open command with items during a spin keeps at most one loop, running exactly while spinning, whose index lies inside the current items and whose target is that slot's angle modulo 360; the slots the layout of the current items apart from highlighting; the button disabled while spinning and while its single timer is pending |
| Session.ButtonBlocksSecondSpin | web/script.js:145-149 | on a coherent page the spin button cannot be clicked while a spin runs, so no second spin starts during one |
| Session.ResultEndsLoop | web/script.js:190-224 | one event sends a `spinResult` only by ending a loop and starts a loop only when it is a click |
| Session.ResultPerLoop | web/script.js:139-232 | on a coherent page, away from a reopen during a spin, a click starts exactly one loop and a loop that ends sends exactly one `spinResult` |
| Session.AtMostOneResultPerSpin | web/script.js:139-224 | along any sequence of events, results sent plus loops still running never exceed the loops at the start plus the clicks: one click yields at most one `spinResult` |
| Session.OneResultPerSpin | web/script.js:139-232 | along any sequence of events from a coherent page that never replaces the items during a spin, results sent plus loops still running equal the loops at the start plus the clicks: every click yields exactly one `spinResult` once its loop ends |
| Session.ReportInBounds | web/script.js:205-232 | on a coherent page the last frame reports an index inside the current items with the item at that index, selects it, highlights only its slot, ends with the wheel on target at that slot's angle modulo 360, and sets the one timer that enables the button |
| Session.RearmAllowsNextSpin | web/script.js:226-232 | on a coherent page the firing timer enables the button, and the next click with items starts exactly one loop |
| Session.RunCoherent | web/script.js:116-119 | any sequence of events that never replaces the items during a spin keeps the page coherent |
| Session.RunReportsLand | web/script.js:152-224 | along any sequence of events that never replaces the items during a spin, every `spinResult` names an index inside the items, carries the item there, and is the slot the wheel stopped on: the rotation modulo 360 is that slot's angle in the drawn wheel |
| Session.LockedForever | web/script.js:145-149 | once the button is disabled with no loop running and no timer pending, it stays disabled whatever the host sends, and only `closeLootcase` is ever sent |
| Session.SwordAndShieldScenario | web/script.js:152-157 | with a common sword and a rare shield, a draw of index 1 targets 1260 degrees (180 modulo 360) and reports the shield; the button takes no click while the wheel turns |
| Session.SwordAndShieldRearm | web/script.js:226-232 | after that spin the button stays disabled until its timer fires and then takes a click |
| Session.ReopenMidSpinLocksButton | web/script.js:205-244 | reopening with one item during a spin leaves the button disabled; the loop's index 1 is past the end of the new list, so completion clears the selection and fails in `showResult` before it sends a result or sets the timer, which leaves the page locked |
| Session.ReopenMidSpinReportsWrongItem | web/script.js:205-224 | reopening with a longer list during a spin makes the spin report the new list's item at its old index, whose slot is at 120 degrees while the wheel stops at 180 |

## Left out

- `NUIMessaging.send` and `NUIMessaging.on` (web/script.js:15-36) are a `fetch` to the host and `window` message listeners. Outbound messages are returned as data instead. In `on`, the listener's parameter shadows `event`, so the comparison at line 32 compares the message type with the event object and never matches. `on` is not modelled.
- `init` and `attachEventListeners` (web/script.js:54-58, 89-104) only wire DOM listeners, and `init` is never called in this file. The dispatch of open and close commands is modelled by the events of `Session.Apply`.
- DOM work is reduced to the data it shows. This covers element lookup and creation, the `innerHTML` template, the CSS transforms (including `translateY(-150px)`) and the class toggling. In particular `resetSpinner` (web/script.js:126-134) sets `currentRotation` to 0 but leaves the container's `transform`, which only line 187 writes. After a reopen the wheel still shows its old rotation while the state holds 0, and the next spin's first frame jumps back towards 0; the model has only the state's value. The model assumes every element it looks up exists. If the result box were missing, completion past the end of the list would send a `spinResult` without item data instead of failing in `showResult`.
- `spinSpeed` (web/script.js:45) is never read by the code.
- `performance.now`, `requestAnimationFrame` and the timers are clock concerns. A frame is given by its elapsed milliseconds. The 1500 ms button timer is an event that may fire any time after the completion that set it; its delay is not modelled. The 3000 ms auto-hide of the result panel is not modelled.
- The 300 ms close timer (web/script.js:265-267) is not modelled. An open command within 300 ms of a close shows the overlay, and `LootcaseSpinner.Open` reports it visible, but the pending timer then hides it again.
- The model assumes `spin()` is reached only by clicks of the spin button, as the listener at web/script.js:92 wires it once `init` runs; the file never calls `init`, so how the button and the host messages are wired is outside it. `Session` models clicks of the enabled button. A direct call of `spin()` from other code would bypass the disabled button and is not an event of the model. The model also lets the button be clicked while the overlay is hidden.
- The spin button's initial state comes from the page markup, which is not part of this model. It is taken to be enabled.
- `Math.random` becomes the parameters `r1` and `r2` of `Spin`, each required to lie in [0, 1).
- IEEE double rounding in `360 / N`, in `r * N`, in `Math.pow` and in `start + (target - start) * 1` (web/script.js:182) is not modelled. In doubles the last frame can miss the target by a rounding step, so the exact landing that `LootcaseSpinner.AnimateFrame` states holds for exact reals only. Exact reals are used instead.
- Page bootstrap, the close button, the Escape key and the `uiReady` message (web/script.js:278-306) are page wiring. The close command itself is `LootcaseSpinner.Close`.
- Item fields are modelled as optional strings. Non-string values, which JavaScript would render, are not modelled.
- Items.UpperAscii: upper-cases ASCII letters only. JavaScript's `toUpperCase` also maps non-ASCII letters and can change a string's length (for example `ß` becomes `SS`).
- LootcaseSpinner.Spin: requires a non-empty item list when the guard lets the press through. With an empty list the source computes a NaN target and completes with an undefined item, which is degenerate and not modelled. Its visible consequence is the lock of `Session.ReopenMidSpinLocksButton`: the completion throws in `showResult` (web/script.js:244) before the timer at line 227 is set, so the button stays disabled for good.
- LootcaseSpinner.FrameBetween: requires `elapsed >= 0`. A frame timestamp earlier than the start time would give negative progress, which the source does not clamp, and the rotation would leave the range between start and target.
- Session.Run: keeps only the latest result panel shown, because the panel's auto-hide timer is not modelled.

=== FILE: geometry.dfy ===
/**
 * The arithmetic of the spinner: slot angles, the two random draws of a
 * spin, the target rotation, the clamped progress of a frame, the cubic
 * ease-out curve and the interpolation of the rotation.  Angles are degrees
 * and times milliseconds, both as exact reals.
 */
module Geometry {

  /** Degrees in one full turn of the wheel. */
  const FullTurn: real := 360.0

  /** Length of the spin animation in milliseconds. */
  const SpinDuration: real := 3000.0

  /** Least number of extra full turns of a spin; the draw adds 0, 1 or 2. */
  const MinExtraTurns: int := 3

  /** Number of distinct extra-turn counts a spin can draw. */
  const ExtraTurnChoices: nat := 3

  function Min(a: real, b: real): real {
    if a <= b then a else b
  }

  function Max(a: real, b: real): real {
    if a <= b then b else a
  }

  // ------------------------------------------------------------ sign facts

  /** A product of non-negative factors is non-negative. */
  lemma MulNonNegative(x: real, y: real)
    requires 0.0 <= x && 0.0 <= y
    ensures 0.0 <= x * y
  {
  }

  /** A product of positive factors is positive. */
  lemma MulPositive(x: real, y: real)
    requires 0.0 < x && 0.0 < y
    ensures 0.0 < x * y
  {
  }

  /** Multiplying by a non-negative factor keeps an order. */
  lemma ScaleLe(x: real, y: real, z: real)
    requires x <= y && 0.0 <= z
    ensures x * z <= y * z
  {
    MulNonNegative(y - x, z);
    assert y * z - x * z == (y - x) * z;
  }

  /** Multiplying by a positive factor keeps a strict order. */
  lemma ScaleLt(x: real, y: real, z: real)
    requires x < y && 0.0 < z
    ensures x * z < y * z
  {
    MulPositive(y - x, z);
    assert y * z - x * z == (y - x) * z;
  }

  /** A positive factor neither creates nor destroys an order, strict or not. */
  lemma ScaleCompare(x: real, y: real, z: real)
    requires 0.0 < z
    ensures x <= y <==> x * z <= y * z
    ensures x < y <==> x * z < y * z
  {
    if x <= y { ScaleLe(x, y, z); } else { ScaleLt(y, x, z); }
    if x < y { ScaleLt(x, y, z); } else { ScaleLe(y, x, z); }
  }

  /** A number of `[0, 1]` times a number of `[0, 1]` is at most the second one. */
  lemma MulUnit(x: real, q: real)
    requires 0.0 <= x <= 1.0 && 0.0 <= q <= 1.0
    ensures 0.0 <= x * q <= q
  {
    MulNonNegative(x, q);
    MulNonNegative(1.0 - x, q);
    assert x * q == q - (1.0 - x) * q;
  }

  // ------------------------------------------------------------ slot angles

  /** Angle of the slot at `index` when `count` slots share the wheel evenly. */
  function SlotAngle(index: int, count: nat): real
    requires count > 0
  {
    index as real * (FullTurn / count as real)
  }

  /** Slots on the wheel lie in one turn, in order, evenly spaced, starting at 0. */
  lemma SlotAngleSpec(index: int, count: nat)
    requires count > 0
    requires 0 <= index < count
    ensures 0.0 <= SlotAngle(index, count) < FullTurn
    ensures index == 0 ==> SlotAngle(index, count) == 0.0
    ensures SlotAngle(index + 1, count) - SlotAngle(index, count) == FullTurn / count as real
  {
    var step := FullTurn / count as real;
    assert count as real * step == FullTurn;
    ScaleLe(0.0, index as real, step);
    ScaleLt(index as real, count as real, step);
    assert (index + 1) as real * step == index as real * step + step;
  }

  /** Distinct slots get distinct angles. */
  lemma SlotAngleInjective(i: int, j: int, count: nat)
    requires count > 0
    requires SlotAngle(i, count) == SlotAngle(j, count)
    ensures i == j
  {
    var step := FullTurn / count as real;
    if i < j {
      ScaleLt(i as real, j as real, step);
    } else if j < i {
      ScaleLt(j as real, i as real, step);
    }
  }

  // ------------------------------------------------------------ random draws

  /**
   * `Math.floor(r * n)` for a draw `r` of `Math.random()`: an index chosen
   * from `[0, n)`.
   */
  function Draw(r: real, n: nat): (k: int)
    requires 0.0 <= r < 1.0
    requires n > 0
    ensures 0 <= k < n
  {
    var x := r * n as real;
    assert 0.0 <= x < n as real by {
      ScaleLe(0.0, r, n as real);
      ScaleLt(r, 1.0, n as real);
    }
    assert x.Floor as real <= x < x.Floor as real + 1.0;
    assert 0 <= x.Floor < n;
    x.Floor
  }

  /** `x.Floor` is the one whole number `k` with `k <= x < k + 1`. */
  lemma FloorIs(x: real, k: int)
    ensures x.Floor == k <==> k as real <= x < (k + 1) as real
  {
    var f := x.Floor;
    assert f as real <= x < (f + 1) as real;
    if k as real <= x < (k + 1) as real {
      assert k < f + 1 && f < k + 1;
    }
  }

  /** Dividing by a positive number and multiplying back is the identity. */
  lemma DivMul(a: real, d: real)
    requires 0.0 < d
    ensures (a / d) * d == a
  {
  }

  /** Comparing with a quotient is comparing with the product by the divisor. */
  lemma DivCompare(a: real, r: real, d: real)
    requires 0.0 < d
    ensures a / d <= r <==> a <= r * d
    ensures r < a / d <==> r * d < a
  {
    DivMul(a, d);
    ScaleCompare(a / d, r, d);
    ScaleCompare(r, a / d, d);
  }

  /**
   * The draw is uniform: index `k` is chosen exactly by the draws in
   * `[k/n, (k+1)/n)`, an interval of width `1/n`.
   */
  lemma DrawInterval(r: real, n: nat, k: int)
    requires 0.0 <= r < 1.0
    requires n > 0
    ensures Draw(r, n) == k <==> k as real / n as real <= r < (k + 1) as real / n as real
  {
    var nr := n as real;
    var x := r * nr;
    assert Draw(r, n) == x.Floor;
    FloorIs(x, k);
    DivCompare(k as real, r, nr);
    DivCompare((k + 1) as real, r, nr);
  }

  /** Every index of `[0, n)` can be drawn. */
  lemma DrawReaches(k: nat, n: nat)
    requires k < n
    ensures 0.0 <= k as real / n as real < 1.0
    ensures Draw(k as real / n as real, n) == k
  {
    var nr := n as real;
    var lo := k as real / nr;
    DivMul(k as real, nr);
    ScaleCompare(0.0, lo, nr);
    ScaleCompare(lo, 1.0, nr);
    assert 0.0 <= lo < 1.0;
    DrawInterval(lo, n, k);
    assert lo <= lo < (k + 1) as real / nr by {
      DivMul((k + 1) as real, nr);
      ScaleCompare(lo, (k + 1) as real / nr, nr);
    }
  }

  /** The number of extra full turns: `Math.floor(r * 3) + 3`. */
  function ExtraTurns(r: real): (t: int)
    requires 0.0 <= r < 1.0
    ensures MinExtraTurns <= t < MinExtraTurns + ExtraTurnChoices
  {
    Draw(r, ExtraTurnChoices) + MinExtraTurns
  }

  /**
   * The turn count is uniform too: `t` turns are drawn exactly by the draws
   * in `[(t-3)/3, (t-2)/3)`, a third of `[0, 1)` for each of 3, 4 and 5.
   */
  lemma ExtraTurnsInterval(r: real, t: int)
    requires 0.0 <= r < 1.0
    ensures ExtraTurns(r) == t <==>
      (t - MinExtraTurns) as real / ExtraTurnChoices as real <= r < (t - MinExtraTurns + 1) as real / ExtraTurnChoices as real
  {
    DrawInterval(r, ExtraTurnChoices, t - MinExtraTurns);
  }

  // --------------------------------------------------------- target rotation

  /** The absolute rotation a spin animates to: whole extra turns plus the winning slot's angle. */
  function TargetRotation(extra: int, index: int, count: nat): real
    requires count > 0
  {
    extra as real * FullTurn + SlotAngle(index, count)
  }

  /** The angle `x` reduced to one turn, `[0, 360)`. */
  function Mod360(x: real): (m: real)
    ensures 0.0 <= m < FullTurn
  {
    x - (x / FullTurn).Floor as real * FullTurn
  }

  /** Adding whole turns to an angle in `[0, 360)` leaves its reduction unchanged. */
  lemma Mod360WholeTurns(turns: int, a: real)
    requires 0.0 <= a < FullTurn
    ensures Mod360(turns as real * FullTurn + a) == a
  {
    var x := turns as real * FullTurn + a;
    assert x / FullTurn == turns as real + a / FullTurn;
    assert (x / FullTurn).Floor == turns;
  }

  /**
   * A spin that drew `extra` turns and slot `index` of `count` stops at the
   * winning slot's angle modulo a full turn, after three to five full turns.
   */
  lemma TargetSpec(extra: int, index: int, count: nat)
    requires count > 0
    requires 0 <= index < count
    requires MinExtraTurns <= extra < MinExtraTurns + ExtraTurnChoices
    ensures Mod360(TargetRotation(extra, index, count)) == SlotAngle(index, count)
    ensures MinExtraTurns as real * FullTurn <= TargetRotation(extra, index, count)
    ensures TargetRotation(extra, index, count) < (MinExtraTurns + ExtraTurnChoices) as real * FullTurn
  {
    SlotAngleSpec(index, count);
    Mod360WholeTurns(extra, SlotAngle(index, count));
  }

  // ---------------------------------------------------------------- progress

  /**
   * Progress of a frame `elapsed` milliseconds after the start of the spin:
   * `Math.min(elapsed / duration, 1)`.  Only the upper end is clamped.
   */
  function Progress(elapsed: real): (p: real)
    ensures p <= 1.0
    ensures p == 1.0 <==> elapsed >= SpinDuration
    ensures p < 1.0 ==> p * SpinDuration == elapsed
    ensures 0.0 <= p <==> 0.0 <= elapsed
  {
    Min(elapsed / SpinDuration, 1.0)
  }

  /** Later frames have at least as much progress. */
  lemma ProgressMonotone(e1: real, e2: real)
    requires e1 <= e2
    ensures Progress(e1) <= Progress(e2)
  {
  }

  // ------------------------------------------------------------------ easing

  /** `Math.pow(x, n)` for a whole exponent. */
  function Pow(x: real, n: nat): real
    decreases n
  {
    if n == 0 then 1.0 else x * Pow(x, n - 1)
  }

  /** The ease-out cubic curve `1 - (1 - p)^3`. */
  function Ease(p: real): real {
    1.0 - Pow(1.0 - p, 3)
  }

  /** Powers of a base in `[0, 1]` stay in `[0, 1]`. */
  lemma {:induction false} PowUnit(x: real, n: nat)
    requires 0.0 <= x <= 1.0
    ensures 0.0 <= Pow(x, n) <= 1.0
    decreases n
  {
    if n > 0 {
      PowUnit(x, n - 1);
      MulUnit(x, Pow(x, n - 1));
    }
  }

  /** Non-negative bases have non-negative powers. */
  lemma {:induction false} PowNonNegative(x: real, n: nat)
    requires 0.0 <= x
    ensures 0.0 <= Pow(x, n)
    decreases n
  {
    if n > 0 {
      PowNonNegative(x, n - 1);
      MulNonNegative(x, Pow(x, n - 1));
    }
  }

  /** A positive power preserves the strict order of non-negative reals. */
  lemma {:induction false} PowStrictlyMonotone(a: real, b: real, n: nat)
    requires 0.0 <= a < b
    requires n > 0
    ensures Pow(a, n) < Pow(b, n)
    decreases n
  {
    var pa, pb := Pow(a, n - 1), Pow(b, n - 1);
    assert Pow(a, n) == a * pa && Pow(b, n) == b * pb;
    if n == 1 {
      assert pa == 1.0 && pb == 1.0;
    } else {
      PowStrictlyMonotone(a, b, n - 1);
      PowNonNegative(a, n - 1);
      ScaleLe(a, b, pa);        // a * pa <= b * pa
      ScaleLt(pa, pb, b);       // pa * b < pb * b
      assert b * pa == pa * b && b * pb == pb * b;
    }
  }

  /** The curve starts at 0 and ends at 1. */
  lemma EaseEndpoints()
    ensures Ease(0.0) == 0.0
    ensures Ease(1.0) == 1.0
  {
    assert Pow(1.0, 3) == 1.0;
    assert Pow(0.0, 3) == 0.0;
  }

  /** Once the animation's duration has elapsed, the eased progress is exactly 1. */
  lemma EaseAtEnd(elapsed: real)
    requires elapsed >= SpinDuration
    ensures Progress(elapsed) == 1.0
    ensures Ease(Progress(elapsed)) == 1.0
  {
    assert Progress(elapsed) == 1.0;
    EaseEndpoints();
  }

  /**
   * The curve rises strictly up to 1, so it never moves the wheel
   * backwards; this holds for negative progress too.
   */
  lemma EaseMonotone(p: real, q: real)
    requires p <= q <= 1.0
    ensures Ease(p) <= Ease(q)
    ensures p < q ==> Ease(p) < Ease(q)
  {
    if p < q {
      PowStrictlyMonotone(1.0 - q, 1.0 - p, 3);
    }
  }

  /** On `[0, 1]` the curve stays in `[0, 1]`. */
  lemma EaseBounds(p: real)
    requires 0.0 <= p <= 1.0
    ensures 0.0 <= Ease(p) <= 1.0
  {
    PowUnit(1.0 - p, 3);
  }

  // ----------------------------------------------------------- interpolation

  /** `start + (target - start) * e`. */
  function Lerp(start: real, target: real, e: real): real {
    start + (target - start) * e
  }

  /**
   * For a weight in `[0, 1]` the interpolated rotation lies between start
   * and target, in whichever order they come; weight 1 lands on the target.
   */
  lemma LerpBetween(start: real, target: real, e: real)
    requires 0.0 <= e <= 1.0
    ensures Min(start, target) <= Lerp(start, target, e) <= Max(start, target)
    ensures e == 1.0 ==> Lerp(start, target, e) == target
    ensures e == 0.0 ==> Lerp(start, target, e) == start
  {
    var d := target - start;
    MulNonNegative(e, 1.0 - e);
    assert d * e + d * (1.0 - e) == d;
    if d >= 0.0 {
      MulNonNegative(d, e);
      MulNonNegative(d, 1.0 - e);
    } else {
      MulNonNegative(-d, e);
      MulNonNegative(-d, 1.0 - e);
      assert (-d) * e == -(d * e) && (-d) * (1.0 - e) == -(d * (1.0 - e));
    }
  }

  /** Full weight lands exactly on the target. */
  lemma LerpFull(start: real, target: real)
    ensures Lerp(start, target, 1.0) == target
  {
  }

  /** A larger weight moves the rotation further towards the target. */
  lemma LerpMonotone(start: real, target: real, e1: real, e2: real)
    requires e1 <= e2
    ensures start <= target ==> Lerp(start, target, e1) <= Lerp(start, target, e2)
    ensures target <= start ==> Lerp(start, target, e2) <= Lerp(start, target, e1)
  {
    assert Lerp(start, target, e2) - Lerp(start, target, e1) == (target - start) * (e2 - e1);
    if start <= target {
      MulNonNegative(target - start, e2 - e1);
    } else {
      MulNonNegative(start - target, e2 - e1);
      assert (start - target) * (e2 - e1) == -((target - start) * (e2 - e1));
    }
  }
}

=== FILE: items.dfy ===
/**
 * Items of a lootcase as the host delivers them, and the text the UI derives
 * from them: the `||` defaults of the slot labels and of the result panel,
 * the decimal rendering of a slot number, and the upper-cased rarity badge.
 */
module Items {

  /** An optional value: the model's stand-in for JavaScript's `null` and `undefined`. */
  datatype Option<+T> = None | Some(value: T)

  /** One entry of the item list; every field may be missing. `caption` is the
      `label` property of the item objects the host sends (`label` is a
      Dafny keyword). */
  datatype Item = Item(caption: Option<string>, rarity: Option<string>, description: Option<string>)

  /** Rarity shown when an item has none. */
  const DefaultRarity: string := "common"

  /** Name shown in the result panel when an item has no label. */
  const UnknownLabel: string := "Unknown Item"

  /** Prefix of the label a slot gets when its item has none. */
  const SlotPrefix: string := "Item "

  /** JavaScript truthiness of an optional string field: missing and "" are falsy. */
  predicate Truthy(field: Option<string>) {
    field.Some? && field.value != ""
  }

  /** The value of `field || fallback`. */
  function OrElse(field: Option<string>, fallback: string): string {
    if Truthy(field) then field.value else fallback
  }

  /** A text shown for a field is never empty when its fallback is not. */
  lemma OrElseNonEmpty(field: Option<string>, fallback: string)
    requires fallback != ""
    ensures OrElse(field, fallback) != ""
    ensures OrElse(field, fallback) == fallback <== !Truthy(field)
    ensures Truthy(field) ==> OrElse(field, fallback) == field.value
  {
  }

  // ---------------------------------------------------------------- decimals

  predicate IsDigit(c: char) {
    '0' <= c <= '9'
  }

  predicate AllDigits(s: string) {
    forall i :: 0 <= i < |s| ==> IsDigit(s[i])
  }

  function DigitChar(d: nat): (c: char)
    requires d < 10
    ensures IsDigit(c)
  {
    ('0' as int + d) as char
  }

  function DigitValue(c: char): (d: nat)
    requires IsDigit(c)
    ensures d < 10
  {
    c as int - '0' as int
  }

  /** The decimal text of `n`, as JavaScript renders a non-negative integer. */
  function Decimal(n: nat): (s: string)
    ensures |s| > 0 && AllDigits(s)
    ensures n > 0 ==> s[0] != '0'
    decreases n
  {
    if n < 10 then [DigitChar(n)] else Decimal(n / 10) + [DigitChar(n % 10)]
  }

  /** Reads a string of decimal digits back as a number. */
  function ParseDecimal(s: string): nat
    requires AllDigits(s)
    decreases |s|
  {
    if s == [] then 0 else ParseDecimal(s[..|s| - 1]) * 10 + DigitValue(s[|s| - 1])
  }

  /** Decimal rendering loses nothing: parsing it gives the number back. */
  lemma {:induction false} DecimalRoundTrip(n: nat)
    ensures ParseDecimal(Decimal(n)) == n
    decreases n
  {
    var s := Decimal(n);
    if n >= 10 {
      DecimalRoundTrip(n / 10);
      assert s[..|s| - 1] == Decimal(n / 10);
    }
  }

  /** Different slot numbers render as different texts. */
  lemma DecimalInjective(m: nat, n: nat)
    requires Decimal(m) == Decimal(n)
    ensures m == n
  {
    DecimalRoundTrip(m);
    DecimalRoundTrip(n);
  }

  // ------------------------------------------------------------------ labels

  /**
   * Label of the slot at position `index`: the item's own label, otherwise
   * "Item " followed by the one-based position.
   */
  function SlotLabel(item: Item, index: nat): string {
    OrElse(item.caption, SlotPrefix + Decimal(index + 1))
  }

  /** A slot label is never empty, and a default label names the slot's one-based position. */
  lemma SlotLabelSpec(item: Item, index: nat)
    ensures SlotLabel(item, index) != ""
    ensures Truthy(item.caption) ==> SlotLabel(item, index) == item.caption.value
    ensures !Truthy(item.caption) ==>
      var l := SlotLabel(item, index);
      && |l| > |SlotPrefix|
      && l[..|SlotPrefix|] == SlotPrefix
      && AllDigits(l[|SlotPrefix|..])
      && ParseDecimal(l[|SlotPrefix|..]) == index + 1
  {
    if !Truthy(item.caption) {
      var l := SlotLabel(item, index);
      assert l[|SlotPrefix|..] == Decimal(index + 1);
      DecimalRoundTrip(index + 1);
    }
  }

  // ------------------------------------------------------------- upper case

  predicate IsLowerAscii(c: char) {
    'a' <= c <= 'z'
  }

  function UpperChar(c: char): char {
    if IsLowerAscii(c) then (c as int - 32) as char else c
  }

  /** `toUpperCase` restricted to ASCII letters; every other character is kept. */
  function UpperAscii(s: string): (u: string)
    ensures |u| == |s|
    ensures forall i :: 0 <= i < |s| ==> !IsLowerAscii(u[i])
    ensures forall i :: 0 <= i < |s| ==> !IsLowerAscii(s[i]) ==> u[i] == s[i]
    ensures forall i :: 0 <= i < |s| ==> IsLowerAscii(s[i]) ==> u[i] as int + 32 == s[i] as int
  {
    seq(|s|, i requires 0 <= i < |s| => UpperChar(s[i]))
  }

  /** Upper-casing twice is upper-casing once. */
  lemma UpperAsciiIdempotent(s: string)
    ensures UpperAscii(UpperAscii(s)) == UpperAscii(s)
  {
  }

  // ----------------------------------------------------------- result panel

  /** What the result box shows for a won item. */
  datatype ResultPanel = ResultPanel(name: string, rarityClass: string, badge: string, description: Option<string>)

  /** The result panel for `item`, with the defaults of the result box. */
  function ShowResult(item: Item): (p: ResultPanel)
    ensures p.name != "" && p.rarityClass != ""
    ensures p.badge == UpperAscii(p.rarityClass)
    ensures Truthy(item.caption) ==> p.name == item.caption.value
    ensures !Truthy(item.caption) ==> p.name == UnknownLabel
    ensures Truthy(item.rarity) ==> p.rarityClass == item.rarity.value
    ensures !Truthy(item.rarity) ==> p.rarityClass == DefaultRarity && p.badge == "COMMON"
    ensures p.description.Some? <==> Truthy(item.description)
    ensures p.description.Some? ==> p.description == item.description
  {
    var rarity := OrElse(item.rarity, DefaultRarity);
    ResultPanel(
      OrElse(item.caption, UnknownLabel),
      rarity,
      UpperAscii(rarity),
      if Truthy(item.description) then item.description else None)
  }

  /** An item whose label, rarity and description are all given. */
  predicate FullyDescribed(item: Item) {
    Truthy(item.caption) && Truthy(item.rarity) && Truthy(item.description)
  }

  /**
   * The result panel loses nothing of a fully described item: two such items
   * show the same panel exactly when they are the same item.
   */
  lemma ShowResultDistinguishes(a: Item, b: Item)
    requires FullyDescribed(a) && FullyDescribed(b)
    ensures ShowResult(a) == ShowResult(b) <==> a == b
  {
    if ShowResult(a) == ShowResult(b) {
      assert a.caption == b.caption && a.rarity == b.rarity && a.description == b.description;
    }
  }
}

=== FILE: session.dfy ===
/**
 * The page as a whole: the spinner state together with the animation loops
 * and button timers that are still scheduled, driven by the events that
 * reach it — the host's open and close commands, clicks of the spin button,
 * animation frames of one of the running loops and the firing of a timer
 * that re-enables the button.
 *
 * A loop keeps the winning index it drew, but reads the item list only when
 * it completes.  An open command with items resets `isSpinning` without
 * stopping the loop, and the loop later reads a list it did not draw from.
 * `Coherent` is the invariant that rules this out; it survives every event
 * except an open command with items during a spin, and the traces at the
 * end show what happens after one: a shorter list leaves the spin button
 * disabled for good, a longer one reports an item the wheel did not stop on.
 */
module Session {
  import opened Items
  import opened Geometry
  import opened Slots
  import opened LootcaseSpinner

  /**
   * The page: the spinner state, the animation loops still scheduled, and
   * the number of button timers set but not yet fired.
   */
  datatype World = World(ui: SpinnerState, running: seq<Animation>, pendingRearms: nat)

  /** What can happen to the page. */
  datatype Event =
    | OpenCommand(items: Option<seq<Item>>)
    | SpinPressed(r1: real, r2: real)
    | AnimationFrame(loop: nat, elapsed: real)
    | ButtonRearmed
    | CloseCommand

  /** The effect of one event: the next world, the result panel shown, the messages sent. */
  datatype Transition = Transition(world: World, shown: Option<ResultPanel>, sent: seq<Outbound>)

  /** The page after loading: hidden, empty, nothing animating, no timer set. */
  const Start: World := World(Initial, [], 0)

  /**
   * Events that can reach `w`: the spin button can be clicked only while it
   * is enabled, its random draws lie in `[0, 1)` and a spin that passes the
   * guard has items to draw from; a frame belongs to a running loop; a
   * timer fires only once set.
   */
  predicate Enabled(w: World, e: Event) {
    match e
    case OpenCommand(_) => true
    case SpinPressed(r1, r2) =>
      && w.ui.buttonEnabled
      && 0.0 <= r1 < 1.0 && 0.0 <= r2 < 1.0
      && (!w.ui.isSpinning ==> |w.ui.items| > 0)
    case AnimationFrame(k, _) => k < |w.running|
    case ButtonRearmed => w.pendingRearms > 0
    case CloseCommand => true
  }

  function RemoveAt<T>(s: seq<T>, k: nat): (r: seq<T>)
    requires k < |s|
    ensures |r| == |s| - 1
  {
    s[..k] + s[k + 1..]
  }

  /**
   * The page's reaction to one event.  Only an open command replaces the
   * items, only a close command says goodbye, only the spin button starts a
   * loop and only a timer enables the button.  A spin result comes from the
   * last frame of a loop, names that loop's index and carries the item now
   * at that index, and a timer is set only together with a result.
   */
  function Apply(w: World, e: Event): (t: Transition)
    requires Enabled(w, e)
    ensures !e.OpenCommand? ==> t.world.ui.items == w.ui.items
    ensures e.OpenCommand? && e.items.Some? ==> t.world.ui.items == e.items.value
    ensures t.sent == [CloseLootcase] <==> e.CloseCommand?
    ensures |t.sent| <= 1
    ensures |t.world.running| > |w.running| ==> e.SpinPressed?
    ensures t.world.ui.buttonEnabled ==> w.ui.buttonEnabled || e.ButtonRearmed?
    ensures forall m | m in t.sent && m.SpinResult? ::
      && e.AnimationFrame? && e.elapsed >= SpinDuration
      && m.itemIndex == w.running[e.loop].index
      && m.itemIndex < |w.ui.items| && m.itemData == w.ui.items[m.itemIndex]
    ensures t.world.pendingRearms > w.pendingRearms ==> |t.sent| == 1 && t.sent[0].SpinResult?
  {
    match e
    case OpenCommand(items) =>
      Transition(World(Open(w.ui, items), w.running, w.pendingRearms), None, [])
    case SpinPressed(r1, r2) =>
      var st := Spin(w.ui, r1, r2);
      var loops := if st.started.Some? then [st.started.value] else [];
      Transition(World(st.next, w.running + loops, w.pendingRearms), None, [])
    case AnimationFrame(k, elapsed) =>
      var f := AnimateFrame(w.ui, w.running[k], elapsed);
      var loops := if f.finished then RemoveAt(w.running, k) else w.running;
      var timers := w.pendingRearms + if f.step.rearmsButton then 1 else 0;
      Transition(World(f.step.next, loops, timers), f.step.shown, f.step.sent)
    case ButtonRearmed =>
      Transition(World(Rearm(w.ui), w.running, w.pendingRearms - 1), None, [])
    case CloseCommand =>
      var c := Close(w.ui);
      Transition(World(c.next, w.running, w.pendingRearms), c.shown, c.sent)
  }

  /**
   * The invariant of an undisturbed page: at most one loop runs, exactly
   * while the spinner says it is spinning; that loop's index is a position
   * of the current items and its target is that slot's angle modulo a full
   * turn; the slots are the layout of the items, whichever is highlighted;
   * the button is disabled while a spin
   * runs and while its timer is pending; and at most one timer is pending,
   * only when no spin runs.
   */
  predicate Coherent(w: World) {
    && |w.running| <= 1
    && (w.ui.isSpinning <==> |w.running| == 1)
    && (|w.running| == 1 ==>
          && w.running[0].index < |w.ui.items|
          && Mod360(w.running[0].target) == SlotAngle(w.running[0].index, |w.ui.items|))
    && ShowsItems(w.ui.slots, w.ui.items)
    && (w.ui.isSpinning ==> !w.ui.buttonEnabled)
    && w.pendingRearms <= 1
    && (w.pendingRearms == 1 ==> !w.ui.buttonEnabled && !w.ui.isSpinning)
  }

  /** The one event that breaks the invariant: replacing the items during a spin. */
  predicate ReopensMidSpin(w: World, e: Event) {
    e.OpenCommand? && e.items.Some? && w.ui.isSpinning
  }

  /** Every event but a reopen during a spin keeps the page coherent. */
  lemma CoherentPreserved(w: World, e: Event)
    requires Coherent(w) && Enabled(w, e)
    requires !ReopensMidSpin(w, e)
    ensures Coherent(Apply(w, e).world)
  {
    match e
    case OpenCommand(items) =>
      if items.Some? {
        ShowsItemsKept(items.value, [], 0);
      }
    case SpinPressed(r1, r2) =>
      SpinTarget(w.ui, r1, r2);
    case AnimationFrame(k, elapsed) =>
      if elapsed >= SpinDuration {
        assert k == 0;
      }
    case ButtonRearmed =>
    case CloseCommand =>
  }

  /** The page starts coherent. */
  lemma StartCoherent()
    ensures Coherent(Start)
    ensures !Start.ui.isSpinning && Start.running == [] && Start.ui.buttonEnabled
  {
  }

  /**
   * On a coherent page the spin button is disabled while a spin runs, so
   * no second spin can be started while one runs.
   */
  lemma ButtonBlocksSecondSpin(w: World, r1: real, r2: real)
    requires Coherent(w) && w.ui.isSpinning
    ensures !Enabled(w, SpinPressed(r1, r2))
    ensures |w.running| == 1
  {
  }

  /**
   * On a coherent page the last frame of the running spin reports an index
   * of the current items together with the item at that index, selects that
   * item, highlights exactly its slot, shows its result panel, leaves the
   * wheel on the loop's target — which is that slot's angle modulo a full
   * turn — ends the spin and sets the one timer that re-enables the button.
   */
  lemma ReportInBounds(w: World, k: nat, elapsed: real)
    requires Coherent(w) && Enabled(w, AnimationFrame(k, elapsed))
    requires elapsed >= SpinDuration
    ensures var a := w.running[k];
            var t := Apply(w, AnimationFrame(k, elapsed));
      && k == 0
      && a.index < |w.ui.items|
      && t.sent == [SpinResult(a.index, w.ui.items[a.index])]
      && t.shown == Some(ShowResult(w.ui.items[a.index]))
      && t.world.ui.selectedItem == Some(w.ui.items[a.index])
      && SelectedIndices(t.world.ui.slots) == {a.index}
      && t.world.ui.currentRotation == a.target
      && Mod360(t.world.ui.currentRotation) == SlotAngle(a.index, |t.world.ui.items|)
      && !t.world.ui.isSpinning && t.world.running == []
      && !t.world.ui.buttonEnabled && t.world.pendingRearms == 1
  {
  }

  /**
   * On a coherent page the timer set by a completed spin enables the button
   * again, and then a click starts the next spin when there are items.
   */
  lemma RearmAllowsNextSpin(w: World, r1: real, r2: real)
    requires Coherent(w) && Enabled(w, ButtonRearmed)
    requires |w.ui.items| > 0
    requires 0.0 <= r1 < 1.0 && 0.0 <= r2 < 1.0
    ensures var w' := Apply(w, ButtonRearmed).world;
      && Coherent(w') && w'.pendingRearms == 0
      && Enabled(w', SpinPressed(r1, r2))
      && |Apply(w', SpinPressed(r1, r2)).world.running| == 1
  {
    CoherentPreserved(w, ButtonRearmed);
  }

  // ------------------------------------------------------------ event runs

  /** `es` can be applied to `w` one event after the other. */
  predicate Admissible(w: World, es: seq<Event>)
    decreases |es|
  {
    |es| == 0 || (Enabled(w, es[0]) && Admissible(Apply(w, es[0]).world, es[1..]))
  }

  /** No event of the run replaces the items while a spin is running. */
  predicate NoReopenMidSpin(w: World, es: seq<Event>)
    requires Admissible(w, es)
    decreases |es|
  {
    |es| == 0 || (!ReopensMidSpin(w, es[0]) && NoReopenMidSpin(Apply(w, es[0]).world, es[1..]))
  }

  /** The world after applying `es` to `w`, and every message sent on the way. */
  function Run(w: World, es: seq<Event>): Transition
    requires Admissible(w, es)
    decreases |es|
  {
    if |es| == 0 then Transition(w, None, [])
    else
      var t := Apply(w, es[0]);
      var rest := Run(t.world, es[1..]);
      Transition(rest.world, if rest.shown.Some? then rest.shown else t.shown, t.sent + rest.sent)
  }

  /** A page that never has its items replaced during a spin stays coherent. */
  lemma {:induction false} RunCoherent(w: World, es: seq<Event>)
    requires Coherent(w) && Admissible(w, es) && NoReopenMidSpin(w, es)
    ensures Coherent(Run(w, es).world)
    decreases |es|
  {
    if |es| > 0 {
      CoherentPreserved(w, es[0]);
      RunCoherent(Apply(w, es[0]).world, es[1..]);
    }
  }

  /**
   * A reported result matches page `w` it leaves behind: its index is a
   * position of the items and of the slots, it carries the item there, and
   * the wheel has stopped on that slot's angle modulo a full turn, which is
   * the angle the layout gives the item.
   */
  predicate LandsOn(w: World, m: Outbound)
    requires m.SpinResult?
  {
    && 0 <= m.itemIndex < |w.ui.items|
    && m.itemIndex < |w.ui.slots|
    && m.itemData == w.ui.items[m.itemIndex]
    && Mod360(w.ui.currentRotation) == SlotAngle(m.itemIndex, |w.ui.items|)
    && Mod360(w.ui.currentRotation) == w.ui.slots[m.itemIndex].angle
  }

  /** Every spin result sent along the run lands on the page it leaves behind. */
  predicate ReportsLand(w: World, es: seq<Event>)
    requires Admissible(w, es)
    decreases |es|
  {
    |es| == 0 ||
      var t := Apply(w, es[0]);
      && (forall m | m in t.sent && m.SpinResult? :: LandsOn(t.world, m))
      && ReportsLand(t.world, es[1..])
  }

  /**
   * A page that never has its items replaced during a spin reports only
   * results that land: each names a position of the items it holds, carries
   * the item there, and is the slot the wheel stopped on.
   */
  lemma {:induction false} RunReportsLand(w: World, es: seq<Event>)
    requires Coherent(w) && Admissible(w, es) && NoReopenMidSpin(w, es)
    ensures ReportsLand(w, es)
    decreases |es|
  {
    if |es| > 0 {
      var e := es[0];
      var t := Apply(w, e);
      CoherentPreserved(w, e);
      forall m | m in t.sent && m.SpinResult?
        ensures LandsOn(t.world, m)
      {
        ReportInBounds(w, e.loop, e.elapsed);
        ShowsItemsKept(t.world.ui.items, t.world.ui.slots, 0);
      }
      RunReportsLand(t.world, es[1..]);
    }
  }

  /** The number of spin results among messages `ms`. */
  function CountResults(ms: seq<Outbound>): (n: nat)
    ensures n <= |ms|
    decreases |ms|
  {
    if |ms| == 0 then 0 else (if ms[0].SpinResult? then 1 else 0) + CountResults(ms[1..])
  }

  /** The number of clicks of the spin button among events `es`. */
  function CountClicks(es: seq<Event>): (n: nat)
    ensures n <= |es|
    decreases |es|
  {
    if |es| == 0 then 0 else (if es[0].SpinPressed? then 1 else 0) + CountClicks(es[1..])
  }

  lemma {:induction false} CountResultsAppend(a: seq<Outbound>, b: seq<Outbound>)
    ensures CountResults(a + b) == CountResults(a) + CountResults(b)
    decreases |a|
  {
    if |a| == 0 {
      assert a + b == b;
    } else {
      assert (a + b)[0] == a[0];
      assert (a + b)[1..] == a[1..] + b;
      CountResultsAppend(a[1..], b);
    }
  }

  /**
   * One event sends a spin result only by ending a loop, and starts a loop
   * only when it is a click: results sent plus loops left never exceed the
   * loops before plus the click.
   */
  lemma ResultEndsLoop(w: World, e: Event)
    requires Enabled(w, e)
    ensures var t := Apply(w, e);
      CountResults(t.sent) + |t.world.running| <= |w.running| + (if e.SpinPressed? then 1 else 0)
  {
    var t := Apply(w, e);
    if |t.sent| == 1 {
      assert CountResults(t.sent) == (if t.sent[0].SpinResult? then 1 else 0) + CountResults(t.sent[1..]);
    }
  }

  /**
   * On a coherent page, away from a reopen during a spin, every click
   * starts exactly one loop and every loop that ends sends exactly one
   * result.
   */
  lemma ResultPerLoop(w: World, e: Event)
    requires Coherent(w) && Enabled(w, e) && !ReopensMidSpin(w, e)
    ensures var t := Apply(w, e);
      CountResults(t.sent) + |t.world.running| == |w.running| + (if e.SpinPressed? then 1 else 0)
  {
    var t := Apply(w, e);
    if |t.sent| == 1 {
      assert CountResults(t.sent) == (if t.sent[0].SpinResult? then 1 else 0) + CountResults(t.sent[1..]);
    }
    if e.AnimationFrame? && e.elapsed >= SpinDuration {
      ReportInBounds(w, e.loop, e.elapsed);
    }
  }

  /**
   * Along any run, the spin results sent and the loops still running
   * together never outnumber the loops at the start plus the clicks: one
   * click yields at most one result.
   */
  lemma {:induction false} AtMostOneResultPerSpin(w: World, es: seq<Event>)
    requires Admissible(w, es)
    ensures CountResults(Run(w, es).sent) + |Run(w, es).world.running| <= |w.running| + CountClicks(es)
    decreases |es|
  {
    if |es| > 0 {
      var t := Apply(w, es[0]);
      ResultEndsLoop(w, es[0]);
      AtMostOneResultPerSpin(t.world, es[1..]);
      CountResultsAppend(t.sent, Run(t.world, es[1..]).sent);
    }
  }

  /**
   * Along a run that never replaces the items during a spin, from a
   * coherent page, every click yields exactly one spin result once its loop
   * ends: results sent plus loops still running equal the loops at the
   * start plus the clicks.
   */
  lemma {:induction false} OneResultPerSpin(w: World, es: seq<Event>)
    requires Coherent(w) && Admissible(w, es) && NoReopenMidSpin(w, es)
    ensures CountResults(Run(w, es).sent) + |Run(w, es).world.running| == |w.running| + CountClicks(es)
    decreases |es|
  {
    if |es| > 0 {
      var t := Apply(w, es[0]);
      ResultPerLoop(w, es[0]);
      CoherentPreserved(w, es[0]);
      OneResultPerSpin(t.world, es[1..]);
      CountResultsAppend(t.sent, Run(t.world, es[1..]).sent);
    }
  }

  /** The spin button is disabled with no timer or loop left that could enable it. */
  predicate Locked(w: World) {
    !w.ui.buttonEnabled && w.pendingRearms == 0 && w.running == []
  }

  /**
   * A locked page stays locked whatever the host does: the button is never
   * enabled again and the only message ever sent is the close notification.
   */
  lemma {:induction false} LockedForever(w: World, es: seq<Event>)
    requires Locked(w) && Admissible(w, es)
    ensures Locked(Run(w, es).world)
    ensures forall m | m in Run(w, es).sent :: m == CloseLootcase
    decreases |es|
  {
    if |es| > 0 {
      var t := Apply(w, es[0]);
      assert Locked(t.world) && t.sent in {[], [CloseLootcase]} by {
        match es[0]
        case OpenCommand(_) =>
        case CloseCommand =>
      }
      LockedForever(t.world, es[1..]);
    }
  }

  // ------------------------------------------------------- reopen mid-spin

  const Sword: Item := Item(Some("Common Sword"), Some("common"), None)
  const Shield: Item := Item(Some("Rare Shield"), Some("rare"), None)
  const Potion: Item := Item(Some("Potion"), None, None)
  const Gem: Item := Item(Some("Gem"), Some("epic"), None)
  const Crown: Item := Item(Some("Crown"), Some("legendary"), None)

  /**
   * The two-item case: slots 180 degrees apart; a spin whose draw picks
   * index 1 stops on 180 degrees modulo a full turn and reports the shield,
   * and the button ignores clicks while the wheel turns.
   */
  lemma SwordAndShieldScenario()
    ensures var w1 := Apply(Start, OpenCommand(Some([Sword, Shield]))).world;
            var w2 := Apply(w1, SpinPressed(0.0, 0.5)).world;
            var t3 := Apply(w2, AnimationFrame(0, SpinDuration));
      && Layout([Sword, Shield])[1].angle == 180.0
      && w2.running == [Animation(0.0, 1260.0, 1)]
      && !Enabled(w2, SpinPressed(0.0, 0.0))
      && Mod360(t3.world.ui.currentRotation) == 180.0
      && t3.sent == [SpinResult(1, Shield)]
  {
    assert Draw(0.5, 2) == 1;
    assert ExtraTurns(0.0) == 3;
    Mod360WholeTurns(3, 180.0);
  }

  /**
   * After the two-item spin the button stays disabled until its timer
   * fires, and then takes the next click.
   */
  lemma SwordAndShieldRearm()
    ensures var w1 := Apply(Start, OpenCommand(Some([Sword, Shield]))).world;
            var w2 := Apply(w1, SpinPressed(0.0, 0.5)).world;
            var t3 := Apply(w2, AnimationFrame(0, SpinDuration));
            var w4 := Apply(t3.world, ButtonRearmed).world;
      && !Enabled(t3.world, SpinPressed(0.0, 0.0))
      && Enabled(w4, SpinPressed(0.0, 0.0))
  {
    assert Draw(0.5, 2) == 1;
    assert ExtraTurns(0.0) == 3;
  }

  /**
   * Replacing the items by a shorter list during a spin locks the page: the
   * spin button stays disabled, the open command does not enable it, and
   * when the loop ends its index 1 is past the end of the new one-item list,
   * so it clears the selection and fails before it sends a result or sets
   * the timer that would enable the button again.
   */
  lemma ReopenMidSpinLocksButton()
    ensures var w1 := Apply(Start, OpenCommand(Some([Sword, Shield]))).world;
            var w2 := Apply(w1, SpinPressed(0.0, 0.5)).world;
            var w3 := Apply(w2, OpenCommand(Some([Potion]))).world;
            var t4 := Apply(w3, AnimationFrame(0, SpinDuration));
      && Coherent(w2) && !Coherent(w3)
      && !w3.ui.isSpinning && !Enabled(w3, SpinPressed(0.0, 0.0))
      && w3.running[0].index == 1 && |w3.ui.items| == 1
      && t4.sent == []
      && t4.world.ui.selectedItem == None
      && !t4.world.ui.isSpinning
      && Locked(t4.world)
  {
    assert Draw(0.5, 2) == 1;
    assert ExtraTurns(0.0) == 3;
    Mod360WholeTurns(3, 180.0);
  }

  /**
   * Replacing the items by a longer list during a spin makes the spin report
   * an item of the new list that was never drawn for, at whose slot the
   * wheel does not stop: the wheel ends at 180 degrees, the reported gem's
   * slot is at 120.
   */
  lemma ReopenMidSpinReportsWrongItem()
    ensures var w1 := Apply(Start, OpenCommand(Some([Sword, Shield]))).world;
            var w2 := Apply(w1, SpinPressed(0.0, 0.5)).world;
            var w3 := Apply(w2, OpenCommand(Some([Potion, Gem, Crown]))).world;
            var t4 := Apply(w3, AnimationFrame(0, SpinDuration));
      && w2.running[0].index == 1 && w2.ui.items[1] == Shield
      && t4.sent == [SpinResult(1, Gem)]
      && t4.world.ui.selectedItem == Some(Gem)
      && Mod360(t4.world.ui.currentRotation) == 180.0
      && SlotAngle(1, 3) == 120.0
      && !LandsOn(t4.world, SpinResult(1, Gem))
  {
    assert Draw(0.5, 2) == 1;
    assert ExtraTurns(0.0) == 3;
    Mod360WholeTurns(3, 180.0);
  }
}

=== FILE: slots.dfy ===
/**
 * The item slots drawn on the wheel: one per item, in input order, evenly
 * spaced, with the item's label and rarity or their defaults, and a
 * `selected` flag that completion of a spin sets on the winning slot only.
 */
module Slots {
  import opened Items
  import opened Geometry

  /** One slot element; its position in the slot sequence is its index. */
  datatype Slot = Slot(angle: real, text: string, rarity: string, selected: bool)

  /** The slot the layout draws for the item at `index` of `count` items. */
  function SlotFor(item: Item, index: nat, count: nat): Slot
    requires count > 0
  {
    Slot(SlotAngle(index, count), SlotLabel(item, index), OrElse(item.rarity, DefaultRarity), false)
  }

  /** The slots the spinner draws for an item list. */
  function Layout(items: seq<Item>): (slots: seq<Slot>)
    ensures |slots| == |items|
    ensures forall i :: 0 <= i < |slots| ==>
      && slots[i].angle == SlotAngle(i, |items|)
      && slots[i].text == SlotLabel(items[i], i)
      && (Truthy(items[i].rarity) ==> slots[i].rarity == items[i].rarity.value)
      && (!Truthy(items[i].rarity) ==> slots[i].rarity == DefaultRarity)
      && !slots[i].selected
  {
    seq(|items|, i requires 0 <= i < |items| => SlotFor(items[i], i, |items|))
  }

  /** Indices of the slots marked as selected. */
  function SelectedIndices(slots: seq<Slot>): set<int> {
    set i | 0 <= i < |slots| && slots[i].selected
  }

  /**
   * Properties of a freshly drawn wheel: slot `i` sits at `i * (360 / N)`,
   * the first at 0 and every one inside a single turn, neighbours are
   * `360 / N` apart, no two slots share an angle, every slot shows a
   * non-empty label and rarity, and nothing is selected yet.
   */
  lemma LayoutSpec(items: seq<Item>)
    requires |items| > 0
    ensures var slots := Layout(items);
      && slots[0].angle == 0.0
      && (forall i :: 0 <= i < |slots| ==> 0.0 <= slots[i].angle < FullTurn)
      && (forall i :: 0 <= i < |slots| - 1 ==> slots[i + 1].angle - slots[i].angle == FullTurn / |items| as real)
      && (forall i, j :: 0 <= i < |slots| && 0 <= j < |slots| && slots[i].angle == slots[j].angle ==> i == j)
      && (forall i :: 0 <= i < |slots| ==> slots[i].text != "" && slots[i].rarity != "")
      && SelectedIndices(slots) == {}
  {
    var slots := Layout(items);
    var n := |items|;
    SlotAngleSpec(0, n);
    forall i | 0 <= i < n
      ensures 0.0 <= slots[i].angle < FullTurn
      ensures slots[i].text != "" && slots[i].rarity != ""
    {
      SlotAngleSpec(i, n);
      SlotLabelSpec(items[i], i);
      OrElseNonEmpty(items[i].rarity, DefaultRarity);
    }
    forall i | 0 <= i < n - 1
      ensures slots[i + 1].angle - slots[i].angle == FullTurn / n as real
    {
      SlotAngleSpec(i, n);
    }
    forall i, j | 0 <= i < n && 0 <= j < n && slots[i].angle == slots[j].angle
      ensures i == j
    {
      SlotAngleInjective(i, j, n);
    }
  }

  /**
   * Completion's highlighting: every slot loses its mark, then the slot
   * whose index equals the winning index gets it.
   */
  function Highlight(slots: seq<Slot>, index: int): (r: seq<Slot>)
    ensures |r| == |slots|
    ensures forall i :: 0 <= i < |r| ==> r[i].angle == slots[i].angle && r[i].text == slots[i].text && r[i].rarity == slots[i].rarity
    ensures SelectedIndices(r) == if 0 <= index < |slots| then {index} else {}
  {
    var r := seq(|slots|, i requires 0 <= i < |slots| => slots[i].(selected := i == index));
    assert SelectedIndices(r) == if 0 <= index < |slots| then {index} else {} by {
      forall i | i in SelectedIndices(r) ensures i == index {
      }
      if 0 <= index < |slots| {
        assert r[index].selected;
      }
    }
    r
  }

  /** Highlighting the same index twice changes nothing the second time. */
  lemma HighlightIdempotent(slots: seq<Slot>, index: int)
    ensures Highlight(Highlight(slots, index), index) == Highlight(slots, index)
  {
    var once := Highlight(slots, index);
    var twice := Highlight(once, index);
    forall i | 0 <= i < |twice| ensures twice[i] == once[i] {
      assert twice[i].selected <==> i in SelectedIndices(twice);
      assert once[i].selected <==> i in SelectedIndices(once);
    }
  }

  /**
   * `slots` are the layout drawn for `items`, whichever of them are
   * highlighted.
   */
  predicate ShowsItems(slots: seq<Slot>, items: seq<Item>) {
    && |slots| == |items|
    && forall i :: 0 <= i < |slots| ==> slots[i].(selected := false) == Layout(items)[i]
  }

  /**
   * A freshly drawn layout shows its items, and so does every highlighting
   * of slots that show them: the wheel keeps its items' angles, labels and
   * rarities until it is drawn anew.
   */
  lemma ShowsItemsKept(items: seq<Item>, slots: seq<Slot>, index: int)
    ensures ShowsItems(Layout(items), items)
    ensures ShowsItems(slots, items) ==> ShowsItems(Highlight(slots, index), items)
    ensures ShowsItems(slots, items) ==>
      forall i :: 0 <= i < |slots| ==> slots[i].angle == SlotAngle(i, |items|)
  {
    var l := Layout(items);
    forall i | 0 <= i < |l|
      ensures l[i].(selected := false) == l[i]
    {
      assert !l[i].selected;
    }
  }
}

=== FILE: spinner.dfy ===
/**
 * The lootcase spinner as an immutable state and pure transitions: opening
 * (which resets), the guarded start of a spin, one animation frame, the
 * completion of a spin, the delayed re-enabling of the spin button, and
 * closing.  The DOM is reduced to the data it shows (slots, result panel,
 * visibility, whether the spin button is enabled), the random draws are parameters,
 * a frame is given by the milliseconds elapsed since its spin started, and
 * messages to the host are returned as a list.
 */
module LootcaseSpinner {
  import opened Items
  import opened Geometry
  import opened Slots

  /** The one spinner state of a page. */
  datatype SpinnerState = SpinnerState(
    items: seq<Item>,
    isSpinning: bool,
    currentRotation: real,
    selectedItem: Option<Item>,
    slots: seq<Slot>,
    visible: bool,
    buttonEnabled: bool)

  /** Notifications sent to the host. */
  datatype Outbound = SpinResult(itemIndex: int, itemData: Item) | CloseLootcase

  /**
   * One running animation loop: what its frame callback captured when the
   * spin started — the rotation it starts from, the absolute rotation it
   * ends at and the index it will report.
   */
  datatype Animation = Animation(start: real, target: real, index: nat)

  /**
   * The effect of a transition: the next state, the result panel it shows,
   * the messages it sends, and whether it sets the timer that re-enables the
   * spin button.
   */
  datatype Step = Step(next: SpinnerState, shown: Option<ResultPanel>, sent: seq<Outbound>, rearmsButton: bool)

  /** The outcome of pressing spin: the next state and the animation started, if any. */
  datatype SpinStep = SpinStep(next: SpinnerState, started: Option<Animation>)

  /** The outcome of one frame: its effect, and whether the animation loop ends with it. */
  datatype FrameStep = FrameStep(step: Step, finished: bool)

  /** The state when the page has loaded: nothing to show, hidden, the spin button enabled. */
  const Initial: SpinnerState := SpinnerState([], false, 0.0, None, [], false, true)

  // ----------------------------------------------------------------- opening

  /**
   * Back to rest: wheel cleared, rotation 0, not spinning, nothing selected.
   * The spin button is left as it is.
   */
  function Reset(s: SpinnerState): (r: SpinnerState)
    ensures r.items == s.items && r.visible == s.visible && r.buttonEnabled == s.buttonEnabled
    ensures r.currentRotation == 0.0 && !r.isSpinning && r.selectedItem == None && r.slots == []
  {
    s.(currentRotation := 0.0, isSpinning := false, selectedItem := None, slots := [])
  }

  /**
   * The host's open command.  The UI is shown in any case; when the command
   * carries an item list, that list replaces the items, the spinner is reset
   * and the wheel is drawn anew.
   */
  function Open(s: SpinnerState, items: Option<seq<Item>>): (r: SpinnerState)
    ensures r.visible
    ensures items.None? ==> r == s.(visible := true)
    ensures r.buttonEnabled == s.buttonEnabled
    ensures items.Some? ==>
      && r.items == items.value
      && r.currentRotation == 0.0 && !r.isSpinning && r.selectedItem == None
      && r.slots == Layout(items.value)
  {
    match items
    case None => s.(visible := true)
    case Some(list) => Reset(s.(items := list, visible := true)).(slots := Layout(list))
  }

  /** Opening twice with the same command is opening once. */
  lemma OpenIdempotent(s: SpinnerState, items: Option<seq<Item>>)
    ensures Open(Open(s, items), items) == Open(s, items)
  {
  }

  /** An open command with items ends every spin as far as the guard can tell. */
  lemma OpenReleasesGuard(s: SpinnerState, items: seq<Item>)
    requires s.isSpinning
    ensures !Open(s, Some(items)).isSpinning
  {
  }

  // ---------------------------------------------------------------- spinning

  /**
   * `spin()`.  While a spin is running the call is ignored and nothing
   * changes.  Otherwise the spinner starts spinning, the spin button is
   * disabled and an animation towards `extra` whole turns plus the angle of a randomly drawn
   * slot begins from the current rotation.  `r1` and `r2` are the two draws
   * of `Math.random()`, made in that order.
   */
  function Spin(s: SpinnerState, r1: real, r2: real): (r: SpinStep)
    requires 0.0 <= r1 < 1.0 && 0.0 <= r2 < 1.0
    requires !s.isSpinning ==> |s.items| > 0
    ensures s.isSpinning ==> r == SpinStep(s, None)
    ensures !s.isSpinning ==>
      && r.next == s.(isSpinning := true, buttonEnabled := false)
      && r.started.Some?
      && var a := r.started.value;
      && a.index < |s.items|
      && a.start == s.currentRotation
      && (exists extra :: MinExtraTurns <= extra < MinExtraTurns + ExtraTurnChoices &&
            a.target == TargetRotation(extra, a.index, |s.items|))
  {
    if s.isSpinning then
      SpinStep(s, None)
    else
      var extra := ExtraTurns(r1);
      var n := |s.items|;
      var index := Draw(r2, n);
      SpinStep(s.(isSpinning := true, buttonEnabled := false),
               Some(Animation(s.currentRotation, TargetRotation(extra, index, n), index)))
  }

  /**
   * An accepted spin heads for the winning slot: the first draw gives the
   * number of extra turns, the second the slot, and the target is that many
   * whole turns plus the slot's angle in the layout, so it is the slot's
   * angle modulo a full turn and lies in 1080 to 2160 degrees.
   */
  lemma SpinTarget(s: SpinnerState, r1: real, r2: real)
    requires 0.0 <= r1 < 1.0 && 0.0 <= r2 < 1.0
    requires !s.isSpinning && |s.items| > 0
    ensures var a := Spin(s, r1, r2).started.value;
      && a.index == Draw(r2, |s.items|)
      && a.target == ExtraTurns(r1) as real * FullTurn + Layout(s.items)[a.index].angle
      && Mod360(a.target) == SlotAngle(a.index, |s.items|)
      && Mod360(a.target) == Layout(s.items)[a.index].angle
      && 1080.0 <= a.target < 2160.0
  {
    var a := Spin(s, r1, r2).started.value;
    TargetSpec(ExtraTurns(r1), a.index, |s.items|);
  }

  // -------------------------------------------------------------- animation

  /**
   * The rotation a frame of animation `a` shows `elapsed` milliseconds
   * after its spin started: the eased interpolation from start to target.
   */
  function FrameRotation(a: Animation, elapsed: real): real {
    Lerp(a.start, a.target, Ease(Progress(elapsed)))
  }

  /**
   * One frame of animation `a`, `elapsed` milliseconds after its spin
   * started: the rotation is set to the frame's rotation; at full progress
   * the spin completes, with the wheel exactly on the target.
   */
  function AnimateFrame(s: SpinnerState, a: Animation, elapsed: real): (f: FrameStep)
    ensures f.finished <==> elapsed >= SpinDuration
    ensures !f.finished ==> f.step == Step(s.(currentRotation := FrameRotation(a, elapsed)), None, [], false)
    ensures f.finished ==> f.step == Complete(s.(currentRotation := a.target), a.index)
  {
    var rotated := s.(currentRotation := FrameRotation(a, elapsed));
    if Progress(elapsed) < 1.0 then
      FrameStep(Step(rotated, None, [], false), false)
    else
      assert rotated.currentRotation == a.target by {
        EaseAtEnd(elapsed);
        LerpFull(a.start, a.target);
      }
      FrameStep(Complete(rotated, a.index), true)
  }

  /**
   * Every frame from the start of a spin on puts the wheel between the
   * rotation it started from and its target, inclusive, whichever is larger.
   */
  lemma FrameBetween(a: Animation, elapsed: real)
    requires elapsed >= 0.0
    ensures Min(a.start, a.target) <= FrameRotation(a, elapsed) <= Max(a.start, a.target)
  {
    var p := Progress(elapsed);
    EaseBounds(p);
    LerpBetween(a.start, a.target, Ease(p));
  }

  /**
   * Later frames of one animation are never further from its target than
   * earlier ones, including frames stamped before the spin's start time.
   */
  lemma FramesApproachTarget(a: Animation, e1: real, e2: real)
    requires e1 <= e2
    ensures a.start <= a.target ==> FrameRotation(a, e1) <= FrameRotation(a, e2)
    ensures a.target <= a.start ==> FrameRotation(a, e2) <= FrameRotation(a, e1)
  {
    ProgressMonotone(e1, e2);
    EaseMonotone(Progress(e1), Progress(e2));
    LerpMonotone(a.start, a.target, Ease(Progress(e1)), Ease(Progress(e2)));
  }

  /**
   * Completion of the spin that drew `index`.  Spinning stops, the item now
   * at `index` becomes the selection, only its slot is highlighted, its
   * result panel is shown, the result is sent to the host and the timer
   * that re-enables the spin button is set.  When the items were replaced by
   * a shorter list meanwhile, there is no item at `index`: the selection
   * becomes empty, no slot is highlighted, and showing the result of a
   * missing item fails before anything is sent or the timer is set.
   */
  function Complete(s: SpinnerState, index: nat): (r: Step)
    ensures !r.next.isSpinning
    ensures r.next.items == s.items && r.next.currentRotation == s.currentRotation && r.next.visible == s.visible
    ensures r.next.buttonEnabled == s.buttonEnabled
    ensures r.rearmsButton <==> index < |s.items|
    ensures |r.next.slots| == |s.slots|
    ensures forall i :: 0 <= i < |s.slots| ==> r.next.slots[i].(selected := false) == s.slots[i].(selected := false)
    ensures SelectedIndices(r.next.slots) == if index < |s.slots| then {index} else {}
    ensures index < |s.items| ==>
      && r.next.selectedItem == Some(s.items[index])
      && r.shown == Some(ShowResult(s.items[index]))
      && r.sent == [SpinResult(index, s.items[index])]
    ensures index >= |s.items| ==> r.next.selectedItem == None && r.shown == None && r.sent == []
  {
    var slots := Highlight(s.slots, index);
    if index < |s.items| then
      var item := s.items[index];
      Step(s.(isSpinning := false, selectedItem := Some(item), slots := slots),
           Some(ShowResult(item)), [SpinResult(index, item)], true)
    else
      Step(s.(isSpinning := false, selectedItem := None, slots := slots), None, [], false)
  }

  /** A frame before the end of the animation neither stops the spin nor sends anything. */
  lemma EarlyFrameKeepsSpinning(s: SpinnerState, a: Animation, elapsed: real)
    requires elapsed < SpinDuration
    ensures AnimateFrame(s, a, elapsed).step.next.isSpinning == s.isSpinning
    ensures AnimateFrame(s, a, elapsed).step.next.selectedItem == s.selectedItem
    ensures AnimateFrame(s, a, elapsed).step.sent == []
    ensures !AnimateFrame(s, a, elapsed).step.rearmsButton
  {
  }

  // ------------------------------------------------------------- the button

  /**
   * The timer set by a completed spin fires 1500 milliseconds later
   * and enables the spin button; nothing else changes.  Nothing else in the
   * page enables it.
   */
  function Rearm(s: SpinnerState): (r: SpinnerState)
    ensures r.buttonEnabled
    ensures r.(buttonEnabled := s.buttonEnabled) == s
  {
    s.(buttonEnabled := true)
  }

  // ----------------------------------------------------------------- closing

  /**
   * The close command: the UI is hidden and the host is told.  A running
   * spin is not stopped.
   */
  function Close(s: SpinnerState): (r: Step)
    ensures !r.next.visible
    ensures r.next.(visible := s.visible) == s
    ensures r.shown == None && r.sent == [CloseLootcase] && !r.rearmsButton
  {
    Step(s.(visible := false), None, [CloseLootcase], false)
  }
}
